=== FILE: README.md ===
# Disease-prediction results core, modelled in Dafny

This project models the three pieces of pure logic inside the Flask app `app.py`:

- **The rule-based classifier `predict_disease`.** A spreadsheet row is read as
  `Age`, `BMI`, `Cholesterol` and `Blood Pressure`, and a column absent from the sheet reads as 0.
  Four independent strict-threshold rules are checked:
  - Heart Disease: age > 50 and cholesterol > 240
  - Diabetes: BMI > 30
  - Asthma: age < 30 and BMI < 18
  - Hypertension: blood pressure > 140

  The result is the matched labels joined with `", "` in that order, or `"None"`.
  It is modelled in `classifier.dfy`, module `Classifier`. The rules are also given as a small declarative table (`Rule`, `Fires`), and the
  hand-written checks are proved against that table.
- **The pagination of the `results` view.** The page size is fixed at 10. The model
  covers the page's slice of rows, with Python's slice semantics, and
  `total_pages = (n + 9) // 10`. It also covers the `prev`/`next` links, which are
  absent at the ends. This is `pagination.dfy`, module `Pagination`.
- **The `disease_counts` histogram of the `results` view.** The five known labels
  start at 0. Each prediction is split on `", "`, and each token's count goes up by
  one. A token that is not a key raises `KeyError`. This is `label_counts.dfy`,
  module `LabelCounts`. The method `DiseaseCounts` follows the source's nested loop,
  and it is proved equal to a loop-free reference definition `Histogram`.

Other modules:
- `text.dfy`, module `Text`, models `", ".join` and `str.split(", ")` and proves that
  they are inverses on non-empty lists of parts that contain no `", "`.
- `report.dfy`, module `Report`, connects the classifier to the histogram. It covers
  the Prediction column that `df.apply(predict_disease, axis=1)` fills in.
- `wrappers.dfy`, module `Wrappers`, holds `Option` and `Result`. `Result` models
  the raised `KeyError`.
- `sequences.dfy`, module `Sequences`, holds generic facts about sequence slicing.

Modelling choices:
- A row is a `map<string, real>`. A key absent from the map is a column absent from
  the whole sheet; an empty cell of a present column is a NaN, which is not modelled.
- A prediction column is a `seq<string>`, and the histogram is a `map<string, nat>`.
- The page number is an `int`. Slicing clamps negative and past-the-end bounds the way
  Python and `DataFrame.iloc` do, so no precondition on the page is needed.

Two consequences of the code that a reader might not expect:
- **A sheet without Age and BMI columns gives every row the Asthma label.** A column
  absent from the sheet reads as 0 through `row.get(column, 0)`, so every row passes
  both Asthma thresholds (age < 30 and BMI < 18) and is never `"None"`. Heart Disease
  and Diabetes cannot fire, so a row whose blood pressure is at most 140, or whose
  sheet also has no Blood Pressure column, is exactly `"Asthma"`; a row with blood
  pressure above 140 is `"Asthma, Hypertension"`
  (`Classifier.AbsentAgeAndBmiMeansAsthma`).
- **The histogram counts tokens, not rows.** Each prediction is split on `", "` and
  every token is counted, so the counts add up to the number of split tokens. That
  total is at least the number of rows, and it exceeds the number of rows once a row
  has two labels (`LabelCounts.HistogramTotal`, `Report.ReportTotal`).

## Model

| member | source | states |
|---|---|---|
| `Text.Split` | app.py:274 | splitting on `", "` always yields at least one part, and joining the parts back with `", "` restores the input exactly |
| `Text.Join` | app.py:39 | `", ".join` of no parts is `""`; the result starts with the first part, and when there are two or more parts the separator follows the first part. `Text.SplitJoin` is its inverse partner |
| `Text.SplitPartsJoinerFree` | app.py:274 | no part produced by the split contains the separator `", "` |
| `Text.SplitJoin` | app.py:39 | for any non-empty list of parts without `", "`, splitting their join gives back exactly that list, which is the inverse direction of `Split` |
| `Text.FindJoiner` | app.py:274 | the separator search returns the leftmost occurrence at or after the start position, or reports that there is none |
| `Classifier.RuleMeaning` | app.py:30-37 | each entry of the declarative rule table fires exactly when the source's strict threshold test on the row's cells holds |
| `Classifier.Field` | app.py:23-26 | `row.get(column, 0)`: a present column reads as its cell and an absent one as 0. `Classifier.AbsentColumnActsAsZero` lifts this to the whole prediction |
| `Classifier.MatchedDiseases` | app.py:28-37 | the `diseases` list contains exactly the diseases whose rule fires, each at most once, in the order Heart Disease, Diabetes, Asthma, Hypertension |
| `Classifier.PredictDisease` | app.py:22-39 | the output is `"None"` exactly when no rule fires, and splitting the output on `", "` gives the matched labels in rule order, or `["None"]` when nothing matched |
| `Classifier.NoneExactlyWhenNoThresholdPassed` | app.py:30-39 | the output is `"None"` iff not (age>50 and chol>240), BMI<=30, not (age<30 and BMI<18) and BP<=140, with an absent column read as 0 |
| `Classifier.TokenExactlyWhenFires` | app.py:28-39 | a disease's label is among the output's tokens exactly when that disease's rule fires |
| `Classifier.ExpectedTokenExactlyWhenFires` | app.py:28-37 | a disease's label is among the matched labels exactly when that disease's rule fires |
| `Classifier.LabelsMembership` | app.py:31-37 | a label is in the label list exactly when its disease is in the disease list |
| `Classifier.LabelInjective` | app.py:31-39 | distinct diseases have distinct labels, and no label is `"None"` |
| `Classifier.LabelsJoinerFree` | app.py:31-39 | no disease label contains the separator, so the joined output splits cleanly |
| `Classifier.LabelJoinerFree` | app.py:31-37 | each single disease label is free of the separator |
| `Classifier.OnlyRuleColumnsMatter` | app.py:23-26 | two rows that read the same on Age, BMI, Cholesterol and Blood Pressure, with an absent column read as 0, get the same prediction |
| `Classifier.AbsentColumnActsAsZero` | app.py:23-26 | dropping a column from the row gives the same prediction as setting it to 0 |
| `Classifier.AbsentAgeAndBmiMeansAsthma` | app.py:23-24 | a row of a sheet without Age and BMI columns always has the Asthma label and is never `"None"`; if its blood pressure is at most 140, or its sheet has no Blood Pressure column either, it is exactly `"Asthma"` |
| `Classifier.AsthmaExcludes` | app.py:30-35 | Asthma never fires together with Diabetes or with Heart Disease, so a row gets at most three labels |
| `Classifier.AsthmaExcludesInOutput` | app.py:30-39 | an output containing Asthma contains neither Diabetes nor Heart Disease |
| `Classifier.ScenarioHeartDiseaseAndHypertension` | app.py:22-39 | Age 55, BMI 28, Cholesterol 250, BP 150 is classified `"Heart Disease, Hypertension"` |
| `Classifier.ScenarioAsthmaOnly` | app.py:22-39 | Age 22 and BMI 17, with the other columns absent, is classified `"Asthma"` |
| `Classifier.ScenarioHealthy` | app.py:22-39 | Age 40, BMI 22, Cholesterol 200, BP 120 is classified `"None"` |
| `Pagination.TotalPages` | app.py:264 | `total_pages` is the least page count whose pages of 10 hold all `n` rows, which is 0 when there are no rows |
| `Pagination.SliceBound` | app.py:262 | Python's slice bound against length n: a bound inside `0..n` is kept, one past the end becomes n, a negative bound in `-n..-1` counts from the end (i + n), and one below -n becomes 0 |
| `Pagination.PySlice` | app.py:262 | `s[start:end]` has length max(0, b - a) for the clamped bounds a and b, its k-th element is `s[a + k]`, and for in-range bounds it is exactly `s[start..end]` |
| `Pagination.PageSlice` | app.py:260-262 | for page >= 1, the slice has length max(0, min(10, n - (page-1)*10)), its k-th row is row (page-1)*10 + k, and it is empty exactly when page > total_pages |
| `Pagination.Paginate` | app.py:264-270 | `total` is `total_pages`. `prev` is page-1, present exactly when page > 1, so it is at least 1. `next` is page+1, present exactly when page < `total`, so it never exceeds `total`. On a real page, `prev` is absent exactly on page 1 and `next` exactly on the last page |
| `Pagination.LinksLeadToRows` | app.py:262-269 | page 1 has no `prev`, the last page has no `next`, with no rows there is never a `next`, and every link from a real page leads to a page that shows rows |
| `Pagination.PageZeroIsEmpty` | app.py:260-262 | page 0 shows no rows |
| `Pagination.PagesArePrefix` | app.py:259-262 | pages 1..k, laid end to end, are exactly the first min(10k, n) rows |
| `Pagination.PagesCoverRows` | app.py:259-264 | pages 1..total_pages show every row exactly once, in order |
| `LabelCounts.FirstUnknown` | app.py:273-275 | finds the first token that is not a histogram key, or reports none exactly when every token is a key |
| `LabelCounts.Histogram` | app.py:272-275 | succeeds exactly when every split token is a key. Success has exactly the five keys, each counting its token occurrences. Failure carries the first unknown token (the `KeyError`) |
| `LabelCounts.CountTokens` | app.py:274-275 | counting one prediction's tokens either extends the counts by exactly those tokens, or stops at the first unknown token with all earlier tokens known |
| `LabelCounts.DiseaseCounts` | app.py:272-275 | the source's nested loop, starting from five zero counts, returns exactly the reference `Histogram`, including raising on the first unknown token |
| `LabelCounts.InitialCounts` | app.py:272 | the initial dictionary is the five labels each at 0 |
| `LabelCounts.TallyStep` | app.py:275 | incrementing a key's count is the histogram of the tokens with that token appended |
| `LabelCounts.UnknownTokenFails` | app.py:275 | reaching an unknown token after only known ones is exactly the histogram's failure with that token |
| `LabelCounts.FirstUnknownAfterKnown` | app.py:273-275 | after only known tokens, an unknown token is the first unknown one |
| `LabelCounts.TokensAround` | app.py:273-274 | the tokens of all predictions are those before prediction i, then i's own, then those after |
| `LabelCounts.TokensStep` | app.py:273-274 | the tokens of one more prediction extend the earlier tokens by that prediction's split |
| `LabelCounts.TokensAppend` | app.py:273-274 | tokenizing two prediction columns one after the other concatenates their tokens |
| `LabelCounts.OccurrencesAppend` | app.py:275 | occurrence counts add over concatenation |
| `LabelCounts.HistogramTotal` | app.py:272-275 | a successful histogram's counts sum to the number of tokens. That is at least the number of predictions, and more if some prediction has two or more tokens |
| `LabelCounts.TokensPerPrediction` | app.py:273-274 | every prediction contributes at least one token, and a multi-label prediction contributes several |
| `LabelCounts.TotalIsTokenCount` | app.py:272-275 | when all tokens are keys, the per-key occurrence counts add up to the number of tokens |
| `LabelCounts.KnownLabelsOnce` | app.py:272 | each key appears exactly once in the key list |
| `LabelCounts.CountIsPredictionsContaining` | app.py:272-275 | when no prediction repeats a label, each key's count is the number of predictions whose split contains it |
| `Report.PredictAll` | app.py:230 | the Prediction column has one entry per row, the classifier's output for that row |
| `Report.PredictionTokens` | app.py:39 | every token of a prediction is one of the histogram's five keys, and no prediction repeats a token. `"None"` is a token exactly when no rule fired |
| `Report.PredictionsAreKnown` | app.py:272-275 | every token of the whole Prediction column is a histogram key |
| `Report.HistogramNeverRaises` | app.py:272-275 | the histogram loop never raises `KeyError` on the classifier's own output, taken as the in-memory Prediction column; the Excel round trip in between is not modelled (see Left out) |
| `Report.PredictionsDistinct` | app.py:230 | no prediction in the column repeats a label |
| `Report.ContainingIsFiring` | app.py:30-39 | the number of predictions carrying a disease's label is the number of rows whose rule for it fires |
| `Report.ContainingNoneIsNothingMatched` | app.py:39 | the number of predictions carrying `"None"` is the number of rows no rule fires for |
| `Report.DiseaseCountIsRowsFiring` | app.py:272-275 | in the histogram of a classified sheet, each disease's count is the number of rows its rule fires for |
| `Report.NoneCountIsRowsMatchingNothing` | app.py:272-275 | in the histogram of a classified sheet, the `"None"` count is the number of rows no rule fires for |
| `Report.ReportTotal` | app.py:272-275 | the counts of a classified sheet add up to at least the number of rows, and strictly more when a row matches two or more diseases |

## Left out

- Flask routing, `request`, `flash`, `redirect` and the HTML/Jinja/Chart.js templates:
  these are request plumbing and presentation, not logic.
- Reading and writing Excel through pandas/openpyxl: these are foreign library calls.
  The sheet is a `seq` of rows, and `df.apply` is `Report.PredictAll`.
- The upload's file name check, the history JSON file, `uuid`, `datetime` and the
  download route: these are file I/O and nondeterminism.
- Parsing `page` from the query string with `int(...)`: the model starts from an
  integer page. Non-numeric input, which would raise `ValueError`, is not modelled.
- NaN or non-numeric cells, and the `str(pred)` coercion: these are pandas'
  dynamic-typing artefacts. A cell is a real number or its column is absent. A NaN cell, for which
  every comparison is false, is not modelled. An empty cell of a present column is
  exactly such a NaN cell: `read_excel` stores it as NaN, `row.get` returns the NaN and
  not 0, and every rule fails, so a blank row comes out `"None"`.
- Pages below 1: `PageSlice` follows Python's slice rules through `SliceBound` for
  every integer page, but its ensures are stated only for page >= 1 (plus
  `PageZeroIsEmpty` for page 0). `Paginate`'s ensures hold for every integer page.
- Python's `str.split` with an arbitrary separator: only the separator the source
  uses, `", "`, is modelled.
- Report.HistogramNeverRaises: the source saves the Prediction column with `to_excel`
  and the results view reads it back with `read_excel` before counting. The model
  assumes that round trip returns the strings unchanged, so the property covers only
  the in-memory column. A reader that turned the string `"None"` into a missing value
  would make the loop count `"nan"` and raise `KeyError`; that is not modelled.

=== FILE: classifier.dfy ===
/** The mocked rule-based disease classifier `predict_disease` (app.py:22-39). */
module Classifier {
  import opened Text

  /** One spreadsheet row: column name to numeric cell. A key absent from the map is
      a column absent from the whole sheet, which `row.get` reads as its default. */
  type Row = map<string, real>

  const AgeColumn: string := "Age"
  const BmiColumn: string := "BMI"
  const CholesterolColumn: string := "Cholesterol"
  const BloodPressureColumn: string := "Blood Pressure"

  /** `row.get(column, 0)`: a column absent from the sheet reads as zero. */
  function Field(row: Row, column: string): (v: real)
    ensures column in row ==> v == row[column]
    ensures column !in row ==> v == 0.0
  {
    if column in row then row[column] else 0.0
  }

  datatype Disease = HeartDisease | Diabetes | Asthma | Hypertension

  /** The label the classifier writes for each disease. */
  function Label(d: Disease): string {
    match d
    case HeartDisease => "Heart Disease"
    case Diabetes => "Diabetes"
    case Asthma => "Asthma"
    case Hypertension => "Hypertension"
  }

  /** What the classifier writes when no rule fires. */
  const NoneLabel: string := "None"

  /** Position of a disease in the fixed order its rule is checked in. */
  function Rank(d: Disease): nat {
    match d
    case HeartDisease => 0
    case Diabetes => 1
    case Asthma => 2
    case Hypertension => 3
  }

  /** Every threshold of the classifier is a strict comparison of one column. */
  datatype Comparison = Above | Below
  datatype Condition = Condition(column: string, cmp: Comparison, bound: real)

  predicate Holds(c: Condition, row: Row) {
    match c.cmp
    case Above => Field(row, c.column) > c.bound
    case Below => Field(row, c.column) < c.bound
  }

  /** The rule for each disease as a table of conditions, all of which must hold. */
  function Rule(d: Disease): seq<Condition> {
    match d
    case HeartDisease => [Condition(AgeColumn, Above, 50.0), Condition(CholesterolColumn, Above, 240.0)]
    case Diabetes => [Condition(BmiColumn, Above, 30.0)]
    case Asthma => [Condition(AgeColumn, Below, 30.0), Condition(BmiColumn, Below, 18.0)]
    case Hypertension => [Condition(BloodPressureColumn, Above, 140.0)]
  }

  /** Every condition of the list holds of the row. */
  predicate AllHold(conditions: seq<Condition>, row: Row) {
    |conditions| == 0 || (Holds(conditions[0], row) && AllHold(conditions[1..], row))
  }

  predicate Fires(d: Disease, row: Row) {
    AllHold(Rule(d), row)
  }

  /** The rule table read back as the plain threshold tests on the row's cells. */
  lemma RuleMeaning(row: Row)
    ensures Fires(HeartDisease, row) <==> Field(row, AgeColumn) > 50.0 && Field(row, CholesterolColumn) > 240.0
    ensures Fires(Diabetes, row) <==> Field(row, BmiColumn) > 30.0
    ensures Fires(Asthma, row) <==> Field(row, AgeColumn) < 30.0 && Field(row, BmiColumn) < 18.0
    ensures Fires(Hypertension, row) <==> Field(row, BloodPressureColumn) > 140.0
  {
    forall d
      ensures Fires(d, row) <==> forall k :: 0 <= k < |Rule(d)| ==> Holds(Rule(d)[k], row)
    {
      AllHoldEach(Rule(d), row);
    }
    assert Holds(Rule(HeartDisease)[0], row) && Holds(Rule(HeartDisease)[1], row) <==>
      Field(row, AgeColumn) > 50.0 && Field(row, CholesterolColumn) > 240.0;
    assert Holds(Rule(Asthma)[0], row) && Holds(Rule(Asthma)[1], row) <==>
      Field(row, AgeColumn) < 30.0 && Field(row, BmiColumn) < 18.0;
  }

  lemma {:induction false} AllHoldEach(conditions: seq<Condition>, row: Row)
    ensures AllHold(conditions, row) <==> forall k :: 0 <= k < |conditions| ==> Holds(conditions[k], row)
    decreases |conditions|
  {
    if |conditions| > 0 {
      AllHoldEach(conditions[1..], row);
    }
  }

  /** Labels listed in strictly increasing rank: each at most once, in the fixed order. */
  predicate InRankOrder(ds: seq<Disease>) {
    forall i, j :: 0 <= i < j < |ds| ==> Rank(ds[i]) < Rank(ds[j])
  }

  /** The `diseases` list `predict_disease` builds with its four independent checks:
      exactly the diseases whose rule fires, in rank order. */
  function MatchedDiseases(row: Row): (ds: seq<Disease>)
    ensures forall d :: d in ds <==> Fires(d, row)
    ensures InRankOrder(ds)
  {
    RuleMeaning(row);
    var age := Field(row, AgeColumn);
    var bmi := Field(row, BmiColumn);
    var cholesterol := Field(row, CholesterolColumn);
    var bloodPressure := Field(row, BloodPressureColumn);
    var heart := if age > 50.0 && cholesterol > 240.0 then [HeartDisease] else [];
    var diabetes := if bmi > 30.0 then [Diabetes] else [];
    var asthma := if age < 30.0 && bmi < 18.0 then [Asthma] else [];
    var hypertension := if bloodPressure > 140.0 then [Hypertension] else [];
    var ds := heart + diabetes + asthma + hypertension;
    assert HeartDisease in ds <==> HeartDisease in heart;
    assert Diabetes in ds <==> Diabetes in diabetes;
    assert Asthma in ds <==> Asthma in asthma;
    assert Hypertension in ds <==> Hypertension in hypertension;
    ds
  }

  function Labels(ds: seq<Disease>): (ls: seq<string>)
    ensures |ls| == |ds|
    ensures forall k :: 0 <= k < |ds| ==> ls[k] == Label(ds[k])
  {
    if |ds| == 0 then [] else [Label(ds[0])] + Labels(ds[1..])
  }

  /** `predict_disease(row)`: the matched labels joined with the joiner, or "None". */
  function PredictDisease(row: Row): (r: string)
    ensures r == NoneLabel <==> forall d :: !Fires(d, row)
    ensures Split(r) == ExpectedTokens(row)
  {
    var diseases := Labels(MatchedDiseases(row));
    LabelsJoinerFree(MatchedDiseases(row));
    CommaFreeIsJoinerFree(NoneLabel);
    SplitJoin([NoneLabel]);
    assert Split(NoneLabel) == [NoneLabel];
    if |diseases| > 0 then
      SplitJoin(diseases);
      assert diseases[0] != NoneLabel;
      assert Fires(MatchedDiseases(row)[0], row);
      Join(diseases)
    else
      NoneLabel
  }

  /** The token list a prediction should split back into: the matched labels, or
      the single "None" when nothing matched. */
  function ExpectedTokens(row: Row): seq<string> {
    var ds := MatchedDiseases(row);
    if |ds| > 0 then Labels(ds) else [NoneLabel]
  }

  lemma LabelsJoinerFree(ds: seq<Disease>)
    ensures forall k :: 0 <= k < |Labels(ds)| ==> !ContainsJoiner(Labels(ds)[k])
  {
    forall k | 0 <= k < |Labels(ds)|
      ensures !ContainsJoiner(Labels(ds)[k])
    {
      LabelJoinerFree(ds[k]);
    }
  }

  lemma LabelJoinerFree(d: Disease)
    ensures !ContainsJoiner(Label(d))
  {
    match d
    case HeartDisease => CommaFreeIsJoinerFree(Label(d));
    case Diabetes => CommaFreeIsJoinerFree(Label(d));
    case Asthma => CommaFreeIsJoinerFree(Label(d));
    case Hypertension => CommaFreeIsJoinerFree(Label(d));
  }

  /** Only the four rule columns matter, and only through their `row.get(c, 0)` reading. */
  lemma {:induction false} OnlyRuleColumnsMatter(a: Row, b: Row)
    requires Field(a, AgeColumn) == Field(b, AgeColumn)
    requires Field(a, BmiColumn) == Field(b, BmiColumn)
    requires Field(a, CholesterolColumn) == Field(b, CholesterolColumn)
    requires Field(a, BloodPressureColumn) == Field(b, BloodPressureColumn)
    ensures PredictDisease(a) == PredictDisease(b)
  {
    RuleMeaning(a);
    RuleMeaning(b);
  }

  /** A column absent from the sheet behaves exactly like a cell holding 0. */
  lemma AbsentColumnActsAsZero(row: Row, column: string)
    ensures PredictDisease(row - {column}) == PredictDisease(row[column := 0.0])
  {
    OnlyRuleColumnsMatter(row - {column}, row[column := 0.0]);
  }

  /** Because an absent column reads as 0, a sheet without Age and BMI columns passes
      both Asthma thresholds on every row: each such row carries the Asthma label, and
      one whose blood pressure is at most 140 (or absent) is exactly "Asthma". */
  lemma AbsentAgeAndBmiMeansAsthma(row: Row)
    requires AgeColumn !in row && BmiColumn !in row
    ensures Label(Asthma) in Split(PredictDisease(row))
    ensures PredictDisease(row) != NoneLabel
    ensures Field(row, BloodPressureColumn) <= 140.0 ==> PredictDisease(row) == Label(Asthma)
  {
    RuleMeaning(row);
    TokenExactlyWhenFires(row, Asthma);
    if Field(row, BloodPressureColumn) <= 140.0 {
      assert MatchedDiseases(row) == [Asthma];
    }
  }

  /** The output is "None" exactly when every strict threshold test fails. */
  lemma NoneExactlyWhenNoThresholdPassed(row: Row)
    ensures PredictDisease(row) == NoneLabel <==>
      && !(Field(row, AgeColumn) > 50.0 && Field(row, CholesterolColumn) > 240.0)
      && Field(row, BmiColumn) <= 30.0
      && !(Field(row, AgeColumn) < 30.0 && Field(row, BmiColumn) < 18.0)
      && Field(row, BloodPressureColumn) <= 140.0
  {
    RuleMeaning(row);
    var r := PredictDisease(row);
    if r != NoneLabel {
      var d :| Fires(d, row);
    }
  }

  /** The thresholds make Asthma incompatible with Diabetes (BMI) and with Heart
      Disease (age), so a row never gets more than three labels. */
  lemma AsthmaExcludes(row: Row)
    ensures Fires(Asthma, row) ==> !Fires(Diabetes, row) && !Fires(HeartDisease, row)
    ensures |MatchedDiseases(row)| <= 3
  {
    RuleMeaning(row);
  }

  /** Labels have pairwise different lengths, so no two diseases share one, and none is
      "None". */
  lemma LabelInjective(d: Disease, e: Disease)
    ensures Label(d) == Label(e) ==> d == e
    ensures Label(d) != NoneLabel
  {
    assert |Label(d)| == LabelLength(d) && |Label(e)| == LabelLength(e);
  }

  function LabelLength(d: Disease): nat {
    match d
    case HeartDisease => 13
    case Diabetes => 8
    case Asthma => 6
    case Hypertension => 12
  }

  /** A disease's label is among the expected tokens exactly when its rule fires. */
  lemma ExpectedTokenExactlyWhenFires(row: Row, d: Disease)
    ensures Label(d) in ExpectedTokens(row) <==> Fires(d, row)
  {
    var ds := MatchedDiseases(row);
    LabelInjective(d, d);
    if |ds| > 0 {
      LabelsMembership(ds, d);
    }
  }

  /** A label is listed exactly when its disease is. */
  lemma {:induction false} LabelsMembership(ds: seq<Disease>, d: Disease)
    ensures Label(d) in Labels(ds) <==> d in ds
    decreases |ds|
  {
    if |ds| > 0 {
      var rest := ds[1..];
      LabelsMembership(rest, d);
      LabelInjective(ds[0], d);
      assert Labels(ds) == [Label(ds[0])] + Labels(rest);
      assert d in ds <==> d == ds[0] || d in rest;
    }
  }

  /** A disease's label is among the tokens of the prediction exactly when its rule fires. */
  lemma TokenExactlyWhenFires(row: Row, d: Disease)
    ensures Label(d) in Split(PredictDisease(row)) <==> Fires(d, row)
  {
    ExpectedTokenExactlyWhenFires(row, d);
  }

  /** The same exclusions, read on the classifier's text output. */
  lemma AsthmaExcludesInOutput(row: Row)
    ensures Label(Asthma) in Split(PredictDisease(row)) ==>
      Label(Diabetes) !in Split(PredictDisease(row)) && Label(HeartDisease) !in Split(PredictDisease(row))
  {
    AsthmaExcludes(row);
    TokenExactlyWhenFires(row, Asthma);
    TokenExactlyWhenFires(row, Diabetes);
    TokenExactlyWhenFires(row, HeartDisease);
  }

  lemma ScenarioHeartDiseaseAndHypertension()
    ensures PredictDisease(map[AgeColumn := 55.0, BmiColumn := 28.0, CholesterolColumn := 250.0,
                               BloodPressureColumn := 150.0]) == "Heart Disease, Hypertension"
  {
    var row := map[AgeColumn := 55.0, BmiColumn := 28.0, CholesterolColumn := 250.0, BloodPressureColumn := 150.0];
    assert ExpectedTokens(row) == ["Heart Disease", "Hypertension"] by {
      assert MatchedDiseases(row) == [HeartDisease, Hypertension];
    }
    assert Join(Split(PredictDisease(row))) == PredictDisease(row);
    JoinTwo("Heart Disease", "Hypertension");
    HeartAndHypertensionText();
  }

  lemma HeartAndHypertensionText()
    ensures "Heart Disease" + Joiner + "Hypertension" == "Heart Disease, Hypertension"
  {
  }

  lemma JoinTwo(a: string, b: string)
    ensures Join([a, b]) == a + Joiner + b
  {
    assert [a, b][1..] == [b];
  }

  lemma ScenarioAsthmaOnly()
    ensures PredictDisease(map[AgeColumn := 22.0, BmiColumn := 17.0]) == "Asthma"
  {
    var row := map[AgeColumn := 22.0, BmiColumn := 17.0];
    assert MatchedDiseases(row) == [Asthma];
  }

  lemma ScenarioHealthy()
    ensures PredictDisease(map[AgeColumn := 40.0, BmiColumn := 22.0, CholesterolColumn := 200.0,
                               BloodPressureColumn := 120.0]) == NoneLabel
  {
    var row := map[AgeColumn := 40.0, BmiColumn := 22.0, CholesterolColumn := 200.0, BloodPressureColumn := 120.0];
    assert MatchedDiseases(row) == [];
  }
}

=== FILE: label_counts.dfy ===
/** The `disease_counts` histogram of the `results` view (app.py:272-275): every known
    key starts at zero, each prediction is split on the joiner, and each token's
    count goes up by one; a token that is not a known key raises `KeyError`. */
module LabelCounts {
  import opened Wrappers
  import opened Text
  import Sequences

  /** The keys `disease_counts` is created with, in the order the source lists them. */
  const KnownLabels: seq<string> := ["Heart Disease", "Asthma", "Diabetes", "Hypertension", "None"]

  type Counts = map<string, nat>

  /** Every token of a column of predictions, prediction by prediction. */
  function Tokens(preds: seq<string>): seq<string> {
    if |preds| == 0 then [] else Tokens(preds[..|preds| - 1]) + Split(preds[|preds| - 1])
  }

  /** How many times `key` occurs in `tokens`. */
  function Occurrences(tokens: seq<string>, key: string): nat {
    if |tokens| == 0 then 0
    else Occurrences(tokens[..|tokens| - 1], key) + (if tokens[|tokens| - 1] == key then 1 else 0)
  }

  /** The counts of a token list that holds only known labels: each known key with its
      number of occurrences. */
  function Tally(tokens: seq<string>): Counts {
    map l | l in KnownLabels :: Occurrences(tokens, l)
  }

  /** Token `k` is the first one that is not a known key. */
  predicate FirstUnknownAt(tokens: seq<string>, k: int) {
    && 0 <= k < |tokens|
    && tokens[k] !in KnownLabels
    && forall m :: 0 <= m < k ==> tokens[m] in KnownLabels
  }

  /** The first token that is not a known key, if any: the one the loop raises on. */
  function FirstUnknown(tokens: seq<string>): (r: Option<string>)
    ensures r.None? <==> forall t :: t in tokens ==> t in KnownLabels
    ensures r.Some? ==> exists k :: FirstUnknownAt(tokens, k) && tokens[k] == r.value
  {
    if |tokens| == 0 then None
    else if tokens[0] !in KnownLabels then
      assert FirstUnknownAt(tokens, 0);
      Some(tokens[0])
    else
      var r := FirstUnknown(tokens[1..]);
      assert tokens == [tokens[0]] + tokens[1..];
      if r.Some? then
        var k :| FirstUnknownAt(tokens[1..], k) && tokens[1..][k] == r.value;
        assert FirstUnknownAt(tokens, k + 1);
        r
      else
        r
  }

  /** What the histogram loop produces, stated without the loop: the counts of every
      token when all tokens are known labels, and otherwise the `KeyError` for the first
      unknown one. */
  function Histogram(preds: seq<string>): (r: Result<Counts, string>)
    ensures r.Success? <==> forall t :: t in Tokens(preds) ==> t in KnownLabels
    ensures r.Success? ==> r.value.Keys == set l | l in KnownLabels
    ensures r.Success? ==> forall l :: l in r.value ==> r.value[l] == Occurrences(Tokens(preds), l)
    ensures r.Failure? ==> r.error !in KnownLabels
    ensures r.Failure? ==> exists k :: FirstUnknownAt(Tokens(preds), k) && Tokens(preds)[k] == r.error
  {
    var tokens := Tokens(preds);
    match FirstUnknown(tokens)
    case Some(t) => Failure(t)
    case None => Success(Tally(tokens))
  }

  lemma {:induction false} OccurrencesAppend(a: seq<string>, b: seq<string>, key: string)
    ensures Occurrences(a + b, key) == Occurrences(a, key) + Occurrences(b, key)
    decreases |b|
  {
    if |b| > 0 {
      var b' := b[..|b| - 1];
      assert (a + b)[..|a + b| - 1] == a + b';
      OccurrencesAppend(a, b', key);
    } else {
      assert a + b == a;
    }
  }

  /** Counting one more known token bumps exactly its own entry. */
  lemma TallyStep(tokens: seq<string>, t: string)
    requires t in KnownLabels
    ensures Tally(tokens + [t]) == Tally(tokens)[t := Tally(tokens)[t] + 1]
  {
    forall l | l in KnownLabels
      ensures Occurrences(tokens + [t], l) == Occurrences(tokens, l) + (if t == l then 1 else 0)
    {
      assert (tokens + [t])[..|tokens|] == tokens;
    }
  }

  lemma {:induction false} TokensAppend(a: seq<string>, b: seq<string>)
    ensures Tokens(a + b) == Tokens(a) + Tokens(b)
    decreases |b|
  {
    if |b| == 0 {
      assert a + b == a;
    } else {
      var b' := b[..|b| - 1];
      var last := b[|b| - 1];
      Sequences.DropLastOfAppend(a, b);
      TokensAppend(a, b');
      calc {
        Tokens(a + b);
        Tokens(a + b') + Split(last);
        (Tokens(a) + Tokens(b')) + Split(last);
        { Sequences.Associate(Tokens(a), Tokens(b'), Split(last)); }
        Tokens(a) + (Tokens(b') + Split(last));
        Tokens(a) + Tokens(b);
      }
    }
  }

  /** Known tokens before an unknown one: the unknown one is the first. */
  lemma FirstUnknownAfterKnown(known: seq<string>, t: string, rest: seq<string>)
    requires forall s :: s in known ==> s in KnownLabels
    requires t !in KnownLabels
    ensures FirstUnknown(known + [t] + rest) == Some(t)
  {
    var tokens := known + [t] + rest;
    forall m | 0 <= m < |known|
      ensures tokens[m] in KnownLabels
    {
      assert tokens[m] == known[m];
    }
    assert FirstUnknownAt(tokens, |known|);
    var r := FirstUnknown(tokens);
    var k :| FirstUnknownAt(tokens, k) && tokens[k] == r.value;
    FirstUnknownAtUnique(tokens, k, |known|);
  }

  lemma FirstUnknownAtUnique(tokens: seq<string>, k1: int, k2: int)
    requires FirstUnknownAt(tokens, k1) && FirstUnknownAt(tokens, k2)
    ensures k1 == k2
  {
  }

  /** The loop's raise: meeting unknown token `j` of prediction `i` after only known
      tokens is the reference histogram's failure. */
  lemma UnknownTokenFails(preds: seq<string>, i: nat, j: nat)
    requires i < |preds| && j < |Split(preds[i])|
    requires forall t :: t in Tokens(preds[..i]) + Split(preds[i])[..j] ==> t in KnownLabels
    requires Split(preds[i])[j] !in KnownLabels
    ensures Histogram(preds) == Failure(Split(preds[i])[j])
  {
    var parts := Split(preds[i]);
    var done := Tokens(preds[..i]);
    var later := Tokens(preds[i + 1..]);
    TokensAround(preds, i);
    Sequences.CutAt(done, parts, later, j);
    FirstUnknownAfterKnown(done + parts[..j], parts[j], parts[j + 1..] + later);
    HistogramFailsOn(preds, parts[j]);
  }

  lemma HistogramFailsOn(preds: seq<string>, t: string)
    requires FirstUnknown(Tokens(preds)) == Some(t)
    ensures Histogram(preds) == Failure(t)
  {
  }

  /** The tokens of all predictions, cut around those of prediction `i`. */
  lemma TokensAround(preds: seq<string>, i: nat)
    requires i < |preds|
    ensures Tokens(preds) == Tokens(preds[..i]) + Split(preds[i]) + Tokens(preds[i + 1..])
  {
    var front := preds[..i + 1];
    var back := preds[i + 1..];
    Sequences.Reassemble(preds, i + 1);
    TokensAppend(front, back);
    TokensStep(preds, i);
  }

  /** The tokens of the first `i + 1` predictions extend those of the first `i`. */
  lemma TokensStep(preds: seq<string>, i: nat)
    requires i < |preds|
    ensures Tokens(preds[..i + 1]) == Tokens(preds[..i]) + Split(preds[i])
  {
    assert preds[..i + 1][..i] == preds[..i];
  }

  lemma InitialCounts()
    ensures map["Heart Disease" := 0, "Asthma" := 0, "Diabetes" := 0, "Hypertension" := 0, "None" := 0] == Tally([])
  {
  }

  /** The inner loop of the histogram: count the tokens of one prediction on top of
      the counts so far, stopping at the first token that is not a key (its index is
      the error). */
  method CountTokens(counts: Counts, done: seq<string>, parts: seq<string>) returns (r: Result<Counts, nat>)
    requires forall t :: t in done ==> t in KnownLabels
    requires counts == Tally(done)
    ensures r.Success? ==> (forall t :: t in done + parts ==> t in KnownLabels) && r.value == Tally(done + parts)
    ensures r.Failure? ==> r.error < |parts| && parts[r.error] !in KnownLabels
    ensures r.Failure? ==> forall t :: t in done + parts[..r.error] ==> t in KnownLabels
  {
    var acc := counts;
    var j := 0;
    assert done + parts[..0] == done;
    while j < |parts|
      invariant 0 <= j <= |parts|
      invariant forall t :: t in done + parts[..j] ==> t in KnownLabels
      invariant acc == Tally(done + parts[..j])
    {
      var disease := parts[j];
      if disease !in acc {
        return Failure(j);
      }
      TallyStep(done + parts[..j], disease);
      Sequences.ExtendPrefix(done, parts, j);
      acc := acc[disease := acc[disease] + 1];
      j := j + 1;
    }
    assert parts[..j] == parts;
    return Success(acc);
  }

  /** The histogram loop of the `results` view: it computes exactly the reference
      histogram, raising on the first unknown token. */
  method DiseaseCounts(preds: seq<string>) returns (r: Result<Counts, string>)
    ensures r == Histogram(preds)
  {
    var counts: Counts := map["Heart Disease" := 0, "Asthma" := 0, "Diabetes" := 0, "Hypertension" := 0, "None" := 0];
    InitialCounts();
    var i := 0;
    while i < |preds|
      invariant 0 <= i <= |preds|
      invariant forall t :: t in Tokens(preds[..i]) ==> t in KnownLabels
      invariant counts == Tally(Tokens(preds[..i]))
    {
      var parts := Split(preds[i]);
      var step := CountTokens(counts, Tokens(preds[..i]), parts);
      if step.Failure? {
        UnknownTokenFails(preds, i, step.error);
        return Failure(parts[step.error]);
      }
      TokensStep(preds, i);
      counts := step.value;
      i := i + 1;
    }
    assert preds[..i] == preds;
    return Success(counts);
  }

  /** The sum of the counts of `keys`. */
  function SumCounts(h: Counts, keys: seq<string>): nat
    requires forall k :: 0 <= k < |keys| ==> keys[k] in h
  {
    if |keys| == 0 then 0 else h[keys[0]] + SumCounts(h, keys[1..])
  }

  /** How many tokens equal one of `keys`, counted key by key. */
  function TotalOccurrences(tokens: seq<string>, keys: seq<string>): nat {
    if |keys| == 0 then 0 else Occurrences(tokens, keys[0]) + TotalOccurrences(tokens, keys[1..])
  }

  lemma {:induction false} SumOfTally(tokens: seq<string>, keys: seq<string>)
    requires forall k :: 0 <= k < |keys| ==> keys[k] in KnownLabels
    ensures SumCounts(Tally(tokens), keys) == TotalOccurrences(tokens, keys)
    decreases |keys|
  {
    if |keys| > 0 {
      SumOfTally(tokens, keys[1..]);
    }
  }

  /** One more token adds one for every key it equals. */
  lemma {:induction false} TotalStep(tokens: seq<string>, t: string, keys: seq<string>)
    ensures TotalOccurrences(tokens + [t], keys) == TotalOccurrences(tokens, keys) + Occurrences(keys, t)
    decreases |keys|
  {
    assert (tokens + [t])[..|tokens|] == tokens;
    if |keys| > 0 {
      TotalStep(tokens, t, keys[1..]);
      OccurrencesAppend([keys[0]], keys[1..], t);
      assert [keys[0]] + keys[1..] == keys;
      assert Occurrences([keys[0]], t) == (if keys[0] == t then 1 else 0) by {
        assert [keys[0]][..0] == [];
      }
    }
  }

  /** Every key appears once in the key list. */
  lemma KnownLabelsOnce(t: string)
    requires t in KnownLabels
    ensures Occurrences(KnownLabels, t) == 1
  {
    assert Distinct(KnownLabels);
    OccurrencesOfDistinct(KnownLabels, t);
  }

  lemma {:induction false} TotalOfNothing(keys: seq<string>)
    ensures TotalOccurrences([], keys) == 0
    decreases |keys|
  {
    if |keys| > 0 {
      TotalOfNothing(keys[1..]);
    }
  }

  /** When every token is a key, the counts account for every token. */
  lemma {:induction false} TotalIsTokenCount(tokens: seq<string>)
    requires forall t :: t in tokens ==> t in KnownLabels
    ensures TotalOccurrences(tokens, KnownLabels) == |tokens|
    decreases |tokens|
  {
    if |tokens| > 0 {
      var init := tokens[..|tokens| - 1];
      var last := tokens[|tokens| - 1];
      assert tokens == init + [last];
      TotalIsTokenCount(init);
      TotalStep(init, last, KnownLabels);
      KnownLabelsOnce(last);
    } else {
      TotalOfNothing(KnownLabels);
    }
  }

  /** Every prediction yields at least one token, and a prediction with several
      labels yields several. */
  lemma {:induction false} TokensPerPrediction(preds: seq<string>)
    ensures |Tokens(preds)| >= |preds|
    ensures (exists i :: 0 <= i < |preds| && |Split(preds[i])| >= 2) ==> |Tokens(preds)| > |preds|
    decreases |preds|
  {
    if |preds| > 0 {
      var init := preds[..|preds| - 1];
      var last := Split(preds[|preds| - 1]);
      TokensPerPrediction(init);
      assert |Tokens(preds)| == |Tokens(init)| + |last|;
      if exists i :: 0 <= i < |preds| && |Split(preds[i])| >= 2 {
        var i :| 0 <= i < |preds| && |Split(preds[i])| >= 2;
        if i < |preds| - 1 {
          assert init[i] == preds[i];
          assert |Tokens(init)| > |init|;
        }
      }
    }
  }

  /** The counts of a successful histogram add up to the number of tokens, which is at
      least the number of predictions and exceeds it as soon as one prediction carries
      several labels. */
  lemma HistogramTotal(preds: seq<string>)
    requires Histogram(preds).Success?
    ensures SumCounts(Histogram(preds).value, KnownLabels) == |Tokens(preds)|
    ensures |Tokens(preds)| >= |preds|
    ensures (exists i :: 0 <= i < |preds| && |Split(preds[i])| >= 2) ==>
      SumCounts(Histogram(preds).value, KnownLabels) > |preds|
  {
    SumOfTally(Tokens(preds), KnownLabels);
    TotalIsTokenCount(Tokens(preds));
    TokensPerPrediction(preds);
  }

  predicate Distinct(s: seq<string>) {
    forall i, j :: 0 <= i < j < |s| ==> s[i] != s[j]
  }

  /** How many predictions have `key` among their tokens. */
  function Containing(preds: seq<string>, key: string): nat {
    if |preds| == 0 then 0
    else Containing(preds[..|preds| - 1], key) + (if key in Split(preds[|preds| - 1]) then 1 else 0)
  }

  lemma {:induction false} OccurrencesOfDistinct(s: seq<string>, key: string)
    requires Distinct(s)
    ensures Occurrences(s, key) == if key in s then 1 else 0
    decreases |s|
  {
    if |s| > 0 {
      var init := s[..|s| - 1];
      assert s == init + [s[|s| - 1]];
      OccurrencesOfDistinct(init, key);
    }
  }

  /** When no prediction repeats a label, a key's count is the number of predictions
      that carry it. */
  lemma {:induction false} CountIsPredictionsContaining(preds: seq<string>, key: string)
    requires forall i :: 0 <= i < |preds| ==> Distinct(Split(preds[i]))
    ensures Occurrences(Tokens(preds), key) == Containing(preds, key)
    decreases |preds|
  {
    if |preds| > 0 {
      var init := preds[..|preds| - 1];
      CountIsPredictionsContaining(init, key);
      OccurrencesAppend(Tokens(init), Split(preds[|preds| - 1]), key);
      OccurrencesOfDistinct(Split(preds[|preds| - 1]), key);
    }
  }
}

=== FILE: pagination.dfy ===
/** The pagination arithmetic of the `results` view (app.py:258-270): a fixed page
    size, the page's slice of the result rows, the page count and the neighbour links. */
module Pagination {
  import opened Wrappers

  /** `per_page`. */
  const PerPage: nat := 10

  /** `(n + per_page - 1) // per_page`: the fewest pages that hold `n` rows. */
  function TotalPages(n: nat): (t: nat)
    ensures t * PerPage >= n
    ensures t == 0 || (t - 1) * PerPage < n
  {
    (n + PerPage - 1) / PerPage
  }

  /** Python's reading of a slice bound against a sequence of length `n`: a negative
      bound counts from the end, and the result is clamped to `0..n`. */
  function SliceBound(i: int, n: nat): (b: nat)
    ensures b <= n
    ensures 0 <= i <= n ==> b == i
    ensures i > n ==> b == n
    ensures -(n as int) <= i < 0 ==> b == i + n
    ensures i < -(n as int) ==> b == 0
  {
    if i < 0 then (if i + n < 0 then 0 else i + n)
    else if i > n then n
    else i
  }

  /** `s[start:end]` with Python's (and `DataFrame.iloc`'s) slice semantics. */
  function PySlice<T>(s: seq<T>, start: int, end: int): (r: seq<T>)
    ensures |r| == Max(0, SliceBound(end, |s|) - SliceBound(start, |s|))
    ensures forall k :: 0 <= k < |r| ==> r[k] == s[SliceBound(start, |s|) + k]
    ensures 0 <= start <= end <= |s| ==> r == s[start..end]
  {
    var a := SliceBound(start, |s|);
    var b := SliceBound(end, |s|);
    if a < b then s[a..b] else []
  }

  /** `df.iloc[start:end]` for page `page`: for a page number of at least 1, the rows
      from `(page - 1) * per_page` on, at most `per_page` of them, and nothing once the
      page lies past the last one. */
  function PageSlice<T>(rows: seq<T>, page: int): (r: seq<T>)
    ensures page >= 1 ==> |r| == Max(0, Min(PerPage, |rows| - (page - 1) * PerPage))
    ensures page >= 1 ==> forall k :: 0 <= k < |r| ==> r[k] == rows[(page - 1) * PerPage + k]
    ensures page >= 1 ==> (r == [] <==> page > TotalPages(|rows|))
  {
    var start := (page - 1) * PerPage;
    var end := start + PerPage;
    PySlice(rows, start, end)
  }

  function Min(a: int, b: int): int { if a <= b then a else b }
  function Max(a: int, b: int): int { if a >= b then a else b }

  /** The `pagination` dictionary handed to the template: the current page, the page
      count, and the neighbouring page numbers, absent at either end. */
  datatype PageInfo = PageInfo(current: int, total: nat, prev: Option<int>, next: Option<int>)

  function Paginate(n: nat, page: int): (p: PageInfo)
    ensures p.current == page && p.total == TotalPages(n)
    ensures p.prev.Some? <==> page > 1
    ensures p.next.Some? <==> page < p.total
    ensures p.prev.Some? ==> 1 <= p.prev.value == page - 1
    ensures p.next.Some? ==> p.next.value == page + 1 <= p.total
    ensures 1 <= page <= p.total ==> (p.prev.None? <==> page == 1) && (p.next.None? <==> page == p.total)
  {
    var total := TotalPages(n);
    PageInfo(page, total,
             if page > 1 then Some(page - 1) else None,
             if page < total then Some(page + 1) else None)
  }

  /** Page 1 never links back, and the last page (every page when there are no rows)
      never links forward; between the ends both links are present, and every link
      from a real page leads to a page that shows rows. */
  lemma LinksLeadToRows<T>(rows: seq<T>, page: int)
    requires 1 <= page
    ensures Paginate(|rows|, page).prev.None? <==> page == 1
    ensures page <= TotalPages(|rows|) ==> (Paginate(|rows|, page).next.None? <==> page == TotalPages(|rows|))
    ensures |rows| == 0 ==> Paginate(|rows|, page).next.None?
    ensures page <= TotalPages(|rows|) + 1 && Paginate(|rows|, page).prev.Some? ==>
      PageSlice(rows, Paginate(|rows|, page).prev.value) != []
    ensures Paginate(|rows|, page).next.Some? ==> PageSlice(rows, Paginate(|rows|, page).next.value) != []
  {
  }

  /** Page 0 reads the slice `[-10:0]`, which Python resolves to nothing. */
  lemma PageZeroIsEmpty<T>(rows: seq<T>)
    ensures PageSlice(rows, 0) == []
  {
  }

  /** The first `k` pages laid end to end. */
  function Pages<T>(rows: seq<T>, k: nat): seq<T> {
    if k == 0 then [] else Pages(rows, k - 1) + PageSlice(rows, k)
  }

  /** The first `k` pages show exactly the first `k * per_page` rows (or all of them). */
  lemma {:induction false} PagesArePrefix<T>(rows: seq<T>, k: nat)
    ensures Pages(rows, k) == rows[..Min(k * PerPage, |rows|)]
  {
    if k > 0 {
      PagesArePrefix(rows, k - 1);
      var a := Min((k - 1) * PerPage, |rows|);
      var b := Min(k * PerPage, |rows|);
      var page := PageSlice(rows, k);
      assert |page| == b - a;
      assert rows[..b] == rows[..a] + page;
    }
  }

  /** The pages 1 to `total_pages` show every row once, in order, and nothing else. */
  lemma PagesCoverRows<T>(rows: seq<T>)
    ensures Pages(rows, TotalPages(|rows|)) == rows
  {
    PagesArePrefix(rows, TotalPages(|rows|));
    assert rows[..|rows|] == rows;
  }
}

=== FILE: report.dfy ===
/** The results page as a whole: the Prediction column the upload handler fills in with
    `predict_disease` (app.py:230), and what the histogram makes of that column. */
module Report {
  import opened Text
  import opened Classifier
  import opened LabelCounts

  /** `df.apply(predict_disease, axis=1)`: one prediction per row, in row order. */
  function PredictAll(rows: seq<Row>): (preds: seq<string>)
    ensures |preds| == |rows|
    ensures forall i :: 0 <= i < |rows| ==> preds[i] == PredictDisease(rows[i])
  {
    seq(|rows|, i requires 0 <= i < |rows| => PredictDisease(rows[i]))
  }

  /** The number of rows whose rule for `d` fires. */
  function RowsFiring(rows: seq<Row>, d: Disease): nat {
    if |rows| == 0 then 0
    else RowsFiring(rows[..|rows| - 1], d) + (if Fires(d, rows[|rows| - 1]) then 1 else 0)
  }

  /** The number of rows no rule fires for. */
  function RowsMatchingNothing(rows: seq<Row>): nat {
    if |rows| == 0 then 0
    else RowsMatchingNothing(rows[..|rows| - 1]) + (if |MatchedDiseases(rows[|rows| - 1])| == 0 then 1 else 0)
  }

  /** The classifier and the histogram agree on the label set: every token of a
      prediction is a histogram key, no prediction repeats a token, and "None" is a
      token exactly when no rule fired. */
  lemma PredictionTokens(row: Row)
    ensures forall t :: t in Split(PredictDisease(row)) ==> t in KnownLabels
    ensures Distinct(Split(PredictDisease(row)))
    ensures NoneLabel in Split(PredictDisease(row)) <==> |MatchedDiseases(row)| == 0
  {
    ExpectedTokensKnown(row);
  }

  /** The same three facts about the label list before it is joined. */
  lemma ExpectedTokensKnown(row: Row)
    ensures forall t :: t in ExpectedTokens(row) ==> t in KnownLabels
    ensures Distinct(ExpectedTokens(row))
    ensures NoneLabel in ExpectedTokens(row) <==> |MatchedDiseases(row)| == 0
  {
    var ds := MatchedDiseases(row);
    var tokens := ExpectedTokens(row);
    if |ds| > 0 {
      forall k | 0 <= k < |tokens|
        ensures tokens[k] in KnownLabels && tokens[k] != NoneLabel
      {
        LabelInjective(ds[k], ds[k]);
      }
      forall i, j | 0 <= i < j < |tokens|
        ensures tokens[i] != tokens[j]
      {
        LabelInjective(ds[i], ds[j]);
      }
    }
  }

  /** Every token of the Prediction column is a histogram key. */
  lemma {:induction false} PredictionsAreKnown(rows: seq<Row>)
    ensures forall t :: t in Tokens(PredictAll(rows)) ==> t in KnownLabels
    decreases |rows|
  {
    if |rows| > 0 {
      var preds := PredictAll(rows);
      var init := rows[..|rows| - 1];
      PredictionsAreKnown(init);
      PredictAllPrefix(rows);
      assert Tokens(preds) == Tokens(PredictAll(init)) + Split(preds[|preds| - 1]);
      PredictionTokens(rows[|rows| - 1]);
    }
  }

  lemma PredictAllPrefix(rows: seq<Row>)
    requires |rows| > 0
    ensures PredictAll(rows)[..|rows| - 1] == PredictAll(rows[..|rows| - 1])
  {
  }

  /** The histogram never raises on the classifier's own output. */
  lemma HistogramNeverRaises(rows: seq<Row>)
    ensures Histogram(PredictAll(rows)).Success?
  {
    PredictionsAreKnown(rows);
  }

  lemma {:induction false} ContainingIsFiring(rows: seq<Row>, d: Disease)
    ensures Containing(PredictAll(rows), Label(d)) == RowsFiring(rows, d)
    decreases |rows|
  {
    if |rows| > 0 {
      var init := rows[..|rows| - 1];
      ContainingIsFiring(init, d);
      PredictAllPrefix(rows);
      TokenExactlyWhenFires(rows[|rows| - 1], d);
    }
  }

  lemma {:induction false} ContainingNoneIsNothingMatched(rows: seq<Row>)
    ensures Containing(PredictAll(rows), NoneLabel) == RowsMatchingNothing(rows)
    decreases |rows|
  {
    if |rows| > 0 {
      var init := rows[..|rows| - 1];
      ContainingNoneIsNothingMatched(init);
      PredictAllPrefix(rows);
      PredictionTokens(rows[|rows| - 1]);
    }
  }

  /** Each disease's count is the number of rows its rule fires for. */
  lemma DiseaseCountIsRowsFiring(rows: seq<Row>, d: Disease)
    ensures Histogram(PredictAll(rows)).Success?
    ensures Histogram(PredictAll(rows)).value[Label(d)] == RowsFiring(rows, d)
  {
    var preds := PredictAll(rows);
    HistogramNeverRaises(rows);
    PredictionsDistinct(rows);
    LabelInjective(d, d);
    assert Label(d) in KnownLabels;
    CountIsPredictionsContaining(preds, Label(d));
    ContainingIsFiring(rows, d);
  }

  /** The "None" count is the number of rows no rule fires for. */
  lemma NoneCountIsRowsMatchingNothing(rows: seq<Row>)
    ensures Histogram(PredictAll(rows)).Success?
    ensures Histogram(PredictAll(rows)).value[NoneLabel] == RowsMatchingNothing(rows)
  {
    var preds := PredictAll(rows);
    HistogramNeverRaises(rows);
    PredictionsDistinct(rows);
    CountIsPredictionsContaining(preds, NoneLabel);
    ContainingNoneIsNothingMatched(rows);
  }

  lemma PredictionsDistinct(rows: seq<Row>)
    ensures forall i :: 0 <= i < |rows| ==> Distinct(Split(PredictAll(rows)[i]))
  {
    forall i | 0 <= i < |rows|
      ensures Distinct(Split(PredictAll(rows)[i]))
    {
      PredictionTokens(rows[i]);
    }
  }

  /** The counts add up to at least the number of rows, and to strictly more as soon as
      one row carries two labels. */
  lemma ReportTotal(rows: seq<Row>)
    ensures Histogram(PredictAll(rows)).Success?
    ensures SumCounts(Histogram(PredictAll(rows)).value, KnownLabels) >= |rows|
    ensures (exists i :: 0 <= i < |rows| && |MatchedDiseases(rows[i])| >= 2) ==>
      SumCounts(Histogram(PredictAll(rows)).value, KnownLabels) > |rows|
  {
    var preds := PredictAll(rows);
    HistogramNeverRaises(rows);
    HistogramTotal(preds);
    if exists i :: 0 <= i < |rows| && |MatchedDiseases(rows[i])| >= 2 {
      var i :| 0 <= i < |rows| && |MatchedDiseases(rows[i])| >= 2;
      assert Split(preds[i]) == ExpectedTokens(rows[i]);
    }
  }
}

=== FILE: sequences.dfy ===
/** Generic facts about sequence concatenation and slicing, kept apart so that the
    proofs using them do not have to rediscover them amid string-valued terms. */
module Sequences {

  lemma DropLastOfAppend<T>(a: seq<T>, b: seq<T>)
    requires |b| > 0
    ensures (a + b)[..|a + b| - 1] == a + b[..|b| - 1]
    ensures (a + b)[|a + b| - 1] == b[|b| - 1]
  {
  }

  lemma Associate<T>(a: seq<T>, b: seq<T>, c: seq<T>)
    ensures (a + b) + c == a + (b + c)
  {
  }

  lemma Reassemble<T>(s: seq<T>, k: nat)
    requires k <= |s|
    ensures s[..k] + s[k..] == s
  {
  }

  lemma ExtendPrefix<T>(a: seq<T>, s: seq<T>, j: nat)
    requires j < |s|
    ensures a + s[..j + 1] == (a + s[..j]) + [s[j]]
  {
    assert s[..j + 1] == s[..j] + [s[j]];
  }

  lemma CutAt<T>(a: seq<T>, p: seq<T>, b: seq<T>, j: nat)
    requires j < |p|
    ensures a + p + b == (a + p[..j]) + [p[j]] + (p[j + 1..] + b)
  {
    assert p == p[..j] + [p[j]] + p[j + 1..];
  }
}

=== FILE: text.dfy ===
/** The string plumbing shared by the classifier and the histogram:
    Python's `", ".join(parts)` and `s.split(", ")`. */
module Text {
  import opened Wrappers

  /** The separator the classifier joins its labels with and the histogram splits on. */
  const Joiner: string := ", "

  /** `s` has an occurrence of the joiner starting at index `i`. */
  predicate JoinerAt(s: string, i: int) {
    0 <= i && i + |Joiner| <= |s| && s[i..i + |Joiner|] == Joiner
  }

  predicate ContainsJoiner(s: string) {
    exists i :: 0 <= i <= |s| && JoinerAt(s, i)
  }

  /** `Joiner.join(parts)`: the parts with one joiner between each neighbouring pair. */
  function Join(parts: seq<string>): (s: string)
    ensures |parts| == 0 ==> s == ""
    ensures |parts| >= 1 ==> |parts[0]| <= |s| && s[..|parts[0]|] == parts[0]
    ensures |parts| >= 2 ==> JoinerAt(s, |parts[0]|)
  {
    if |parts| == 0 then ""
    else if |parts| == 1 then parts[0]
    else parts[0] + Joiner + Join(parts[1..])
  }

  /** The leftmost occurrence of the joiner at or after `from` (Python's `str.find`). */
  function FindJoiner(s: string, from: nat): (r: Option<nat>)
    ensures r.Some? ==> from <= r.value && JoinerAt(s, r.value)
    ensures r.Some? ==> forall j :: from <= j < r.value ==> !JoinerAt(s, j)
    ensures r.None? ==> forall j :: from <= j ==> !JoinerAt(s, j)
    decreases |s| - from
  {
    if from + |Joiner| > |s| then None
    else if JoinerAt(s, from) then Some(from)
    else FindJoiner(s, from + 1)
  }

  /** `s.split(Joiner)`: cut `s` at every leftmost non-overlapping occurrence of the
      joiner. Splitting never yields an empty list, and joining the parts back gives `s`. */
  function Split(s: string): (parts: seq<string>)
    ensures |parts| >= 1
    ensures Join(parts) == s
    decreases |s|
  {
    match FindJoiner(s, 0)
    case None => [s]
    case Some(i) =>
      var rest := Split(s[i + |Joiner|..]);
      assert s == s[..i] + Joiner + s[i + |Joiner|..];
      assert ([s[..i]] + rest)[1..] == rest;
      [s[..i]] + rest
  }

  /** No part of a split contains the joiner. */
  lemma {:induction false} SplitPartsJoinerFree(s: string)
    ensures forall k :: 0 <= k < |Split(s)| ==> !ContainsJoiner(Split(s)[k])
    decreases |s|
  {
    match FindJoiner(s, 0)
    case None =>
    case Some(i) =>
      PrefixBeforeJoiner(s, i);
      SplitPartsJoinerFree(s[i + |Joiner|..]);
  }

  /** A string without a comma cannot contain the joiner, which starts with one. */
  lemma CommaFreeIsJoinerFree(s: string)
    requires Joiner[0] !in s
    ensures !ContainsJoiner(s)
  {
    forall i | 0 <= i <= |s|
      ensures !JoinerAt(s, i)
    {
      if i + |Joiner| <= |s| {
        assert s[i..i + |Joiner|][0] == s[i];
      }
    }
  }

  /** Cutting `s` before its first joiner leaves a joiner-free prefix. */
  lemma PrefixBeforeJoiner(s: string, i: nat)
    requires i <= |s|
    requires forall j :: 0 <= j < i ==> !JoinerAt(s, j)
    ensures !ContainsJoiner(s[..i])
  {
    if ContainsJoiner(s[..i]) {
      var j :| 0 <= j <= i && JoinerAt(s[..i], j);
      assert j + |Joiner| <= i;
      assert s[..i][j..j + |Joiner|] == s[j..j + |Joiner|];
      assert JoinerAt(s, j);
      assert false;
    }
  }

  /** In `p + Joiner + rest` with a joiner-free `p`, the first joiner starts right after `p`:
      a joiner cannot lie inside `p`, and one starting at `p`'s last character would
      need the joiner's own first character to be a space. */
  lemma FirstJoinerAfter(p: string, rest: string)
    requires !ContainsJoiner(p)
    ensures FindJoiner(p + Joiner + rest, 0) == Some(|p|)
  {
    var s := p + Joiner + rest;
    assert s[|p|..|p| + |Joiner|] == Joiner;
    assert JoinerAt(s, |p|);
    forall j | 0 <= j < |p|
      ensures !JoinerAt(s, j)
    {
      if j + |Joiner| <= |p| {
        assert s[j..j + |Joiner|] == p[j..j + |Joiner|];
        assert !JoinerAt(p, j);
      } else {
        assert s[j + 1] == Joiner[0];
        assert Joiner[0] != Joiner[1];
      }
    }
  }

  /** Splitting undoes joining, for any non-empty list of joiner-free parts. */
  lemma {:induction false} SplitJoin(parts: seq<string>)
    requires |parts| >= 1
    requires forall k :: 0 <= k < |parts| ==> !ContainsJoiner(parts[k])
    ensures Split(Join(parts)) == parts
    decreases |parts|
  {
    if |parts| == 1 {
      assert Join(parts) == parts[0];
    } else {
      var p := parts[0];
      var rest := Join(parts[1..]);
      var s := p + Joiner + rest;
      FirstJoinerAfter(p, rest);
      assert s[..|p|] == p;
      assert s[|p| + |Joiner|..] == rest;
      SplitJoin(parts[1..]);
      assert parts == [p] + parts[1..];
    }
  }
}

=== FILE: wrappers.dfy ===
/** Wrappers shared by the model: `Option` for Python's `None`-or-value results,
    `Result` for operations that can raise. */
module Wrappers {

  datatype Option<+T> = None | Some(value: T)

  datatype Result<+R, +E> = Success(value: R) | Failure(error: E)
}
